=== FILE: README.md ===
# Bot fleet lifecycle — a Dafny model

This project models the core of `server.js`, a small Node.js server that keeps a fleet of game
bots connected. `addBot` caps the stored list at ten descriptors; startup creates a bot for every
stored descriptor, and a duplicate username can leave an unregistered bot connected, so the number
of live bots is not bounded by ten. Each bot runs a mineflayer client. The server keeps two structures in step:

- the **descriptor store** `config.bots`: an ordered list of `{username, password, server{host,port},
  commands, reloginInterval}` that is rewritten to disk on every change;
- the **live-session registry** `bots`: a `Map` from username to bot object.

These are driven by control messages from WebSocket observers (`addBot`, `removeBot`,
`sendCommand`, `stopBot`), by bot callbacks (`login`, `spawn`, `kicked`, `error`, `end`,
`packetError`), and by timers: the relogin timeout and the 5 s reconnect timeout. Every handler is a
synchronous update. Its observable result is the list of effects it performs in order: broadcasts
(`status`, `bots`), the capacity `error` reply, config writes, bot creation, `quit` and `chat`.

Modules:

- `Descriptors` (`descriptors.dfy`): descriptors, `find` by username (`FirstIndex`) and `filter` by
  username (`WithoutUser`, `KeepOthers`).
- `Effects` (`effects.dfy`): observer messages, client options and effects.
- `Lifecycle` (`lifecycle.dfy`): the fleet state and one pure transition per handler, plus startup.
- `Broadcast` (`broadcast.dfy`): observer connections, the `broadcast` fan-out and replies.
- `Server` (`server.dfy`): the fleet and observers driven by one event at a time.
- `Properties` and `Scenarios` (`properties.dfy`, `scenarios.dfy`): lemmas over composed events.

Representation choices:

- JavaScript holds descriptors by reference. A bot's closure keeps the object it was created from.
  `stopBot` mutates the first matching object in place. A reconnect reuses the object `find`
  returned. The model therefore keeps a heap of descriptor objects (`Fleet.heap`, indexed by `Ref`).
  The store is a list of references into it, and `Snapshot` is the list of values `config.bots`
  denotes.
- Every bot object ever created is kept in `Fleet.sessions`, indexed by `Sid`. Its callbacks can
  still fire after it has left the registry. The registry maps a username to the `Sid` registered
  under it.
- Timers are tokens. `Session.relogin` is the pending relogin timeout and its delay in ms.
  `Session.afkArmed` is the running anti-AFK interval. `Fleet.reconnects` lists the pending
  reconnect timeouts, each with the descriptor object it captured. A firing is its own transition
  (`ReloginDue`, `ReconnectDue`).
- Observers are `Broadcast.Observer` records: an open flag and the messages received so far.

Behaviour of the code that the model keeps, and lemmas that exhibit it:

- `createBot` overwrites an existing registry entry, and `addBot` does not look for duplicate
  usernames (`Scenarios.AddDuplicateReplacesRegistration`).
- `end` and `kicked` delete `bots[bot.username]`, whichever bot is registered under that name now.
- `end` consults only the first descriptor of that username (`Properties.FirstMatchDecides`).
- The reconnect timeout reuses the captured descriptor without re-checking the store. So a
  username can be registered while no descriptor of it is stored
  (`Scenarios.ReconnectIgnoresStore`).
- `stopBot` and `removeBot` act only when a bot is registered under the username. `stopBot`
  unregisters it, so a `removeBot` right after the stop and the bot's `end` is a no-op and the
  stopped descriptor stays in the store (`Properties.StopThenRemoveKeepsDescriptor`). `removeBot`
  works again once a bot of that name is registered again: by a later `addBot`, by a reconnect
  timer that was already pending, or at the next startup.
- Node.js runs a timeout whose delay exceeds 2147483647 ms after 1 ms instead. So a relogin
  interval of 35792 minutes or more makes the relogin fire at once after each login
  (`Lifecycle.TimerDelay`, `Properties.LoginArmsIffEnabled`).

## Model

| member | source | states |
|---|---|---|
| Descriptors.FirstIndex | server.js:112 | the position `find` returns: a descriptor with that username, none before it; absent exactly when no descriptor has that username |
| Descriptors.WithoutUser | server.js:148 | the filtered list holds exactly the descriptors whose username differs, and is no longer than the input |
| Descriptors.KeepOthers | server.js:148 | filtering the store's references denotes the filtered descriptor list, and keeps exactly the references whose object has another username |
| Descriptors.KeepOthersAppend | server.js:148 | filtering the store's references distributes over concatenation, so the kept descriptor objects stay in their original order |
| Descriptors.WithoutUserAppend | server.js:148 | filtering distributes over concatenation, so surviving descriptors keep their relative order |
| Descriptors.WithoutUserAbsent | server.js:148 | a list with no descriptor of that username passes through the filter unchanged |
| Descriptors.KeepOthersDistinct | server.js:148 | filtering never makes one descriptor object appear twice in the store |
| Effects.OptionsFor | server.js:52-58 | the client options carry the descriptor's host, port and username, version 1.20.1, and a password only when one is given and non-empty |
| Effects.BroadcastsAppend | server.js:155-161 | the broadcasts of two effect lists in sequence are those of the first followed by those of the second |
| Effects.BroadcastsMembers | server.js:155-161 | a message is broadcast exactly when the effects include its broadcast; the requester receives exactly the broadcasts and the replies |
| Lifecycle.NewDescriptor | server.js:176-182 | the new descriptor has the request's username, password and server, no commands, and relogin interval 0 when none is given |
| Lifecycle.TimerDelay | server.js:70-73 | the delay a timeout runs with: the requested one when it lies between 1 and 2147483647 ms, otherwise 1 ms |
| Lifecycle.CreateBot | server.js:51-61 | a new bot object with no timers, created from the given descriptor object; registered under its username, replacing any earlier entry; other entries, the store and reconnects unchanged; one client creation |
| Lifecycle.OnLogin | server.js:66-75 | reports "logged in"; arms the relogin timer with delay interval * 60 * 1000 ms, clamped as Node.js clamps timer delays, when the descriptor object's interval is positive, and otherwise leaves the timer handle as it was |
| Lifecycle.OnSpawn | server.js:77-80 | reports "spawned" and starts the anti-AFK interval; nothing else changes |
| Lifecycle.OnKicked | server.js:95-98 | reports "kicked: reason" and removes the username from the registry; no reconnect is scheduled; store and other entries unchanged |
| Lifecycle.OnError | server.js:100-102 | reports "error: err" and changes neither store nor registry nor timers |
| Lifecycle.OnPacketError | server.js:121-124 | reports "packet error: message" and changes nothing |
| Lifecycle.OnEnd | server.js:104-119 | clears both timers, reports "disconnected", removes the username from the registry; schedules one 5000 ms reconnect with the store's object if and only if the first descriptor of that username has a positive interval |
| Lifecycle.OnCallback | server.js:66-124 | each callback runs its own handler; no session callback changes the size of the store or of the heap |
| Lifecycle.ReconnectAuthorized | server.js:112-113 | `end` may reconnect exactly when there is a descriptor of that username with a positive interval and no descriptor of that username before it |
| Lifecycle.ReloginDue | server.js:70-73 | a pending relogin timer fires: reports "Scheduled relogin" and asks the bot to quit; without a pending timer nothing happens |
| Lifecycle.ReconnectDue | server.js:114-117 | the reconnect timer is consumed and a new bot with no timers is created from the captured descriptor object and registered under its username, without consulting the store; older bots and other registry entries are unchanged |
| Lifecycle.AddBot | server.js:171-187 | at 10 or more descriptors only the "Maximum 10 bots allowed" error to the requester and no change; otherwise one new descriptor object is allocated and appended to the list, a new bot with no timers is created from it and registered, older bots are unchanged, and the list is persisted and then broadcast |
| Lifecycle.RemoveBot | server.js:144-153 | with a registered bot: quit, the store keeps exactly the same descriptor objects of other usernames, in order, so it denotes the list without that username, persisted, the username unregistered and the new list broadcast; without one, no change and no effect |
| Lifecycle.ZeroFirst | server.js:132-136 | only the object of the first descriptor of that username has its interval set to 0, and no other descriptor object, stored or not, changes; without one the fleet is unchanged |
| Lifecycle.StopBot | server.js:129-142 | with a registered bot: first matching descriptor object's interval set to 0, no other object changed, and persisted, quit, unregistered, then "stopped" and the new list broadcast; without one, a complete no-op |
| Lifecycle.SendCommand | server.js:190-195 | with a registered bot: that bot chats the command and "sent command: ..." is broadcast; otherwise nothing; the fleet never changes |
| Lifecycle.OnRequest | server.js:167-202 | each message type runs its own handler; unparsable or unknown messages change nothing and emit nothing |
| Lifecycle.BootStep | server.js:211-214 | creating the next loaded bot extends the startup invariant by one descriptor |
| Lifecycle.Boot | server.js:211-214 | at startup the store is the loaded list; one bot per descriptor is created in order, with no timers; every loaded username is registered, to the bot of its last descriptor |
| Broadcast.SendTo | server.js:157-158 | an open connection receives the message at the end of its inbox; a closed one is unchanged |
| Broadcast.Deliver | server.js:155-161 | every open connection receives the message once, and every closed connection is left untouched, whatever the others' state |
| Broadcast.ReplyTo | server.js:173 | only the requesting connection receives the reply, if it is open |
| Broadcast.Connect | server.js:163-165 | a new connection is open and has received exactly the current descriptor list |
| Broadcast.Close | server.js:204-207 | closing a connection keeps everything already delivered and affects no other connection |
| Broadcast.Perform | server.js:155-161 | one effect reaches the observers: a broadcast every open connection, a reply only the open requester, anything else no one |
| Broadcast.Dispatch | server.js:155-161 | after a handler's effects, each open connection has received the handler's broadcasts in order, plus its replies for the requester; closed ones are unchanged |
| Server.FleetStep | server.js:167-202 | each message, callback and timer event runs its handler; no event takes a store of at most 10 descriptors above 10 |
| Server.Step | server.js:155-165 | a new observer gets the snapshot; closing changes no fleet state and closes only that connection, keeping every inbox; otherwise the fleet changes as the event's handler says and each open observer receives exactly that handler's broadcasts, the requester also its replies |
| Server.Run | server.js:172-175 | a store of at most 10 descriptors stays at most 10 over any sequence of events |
| Properties.FirstIndexSameNames | server.js:112 | the result of `find` by username depends only on the usernames in the list |
| Properties.StopThenEndNoReconnect | server.js:112-113 | after `stopBot` on a registered bot, the `end` that follows schedules no reconnect |
| Properties.StopThenRemoveKeepsDescriptor | server.js:144-146 | after `stopBot` and the bot's `end`, `removeBot` is a no-op and the descriptor stays in the store |
| Properties.RemoveThenEndNoReconnect | server.js:148 | after `removeBot` no descriptor of that username remains, so the removed bot's `end` schedules no reconnect |
| Properties.AuthorizedWhenUnique | server.js:112-113 | with unique usernames, `end` reconnects if and only if some descriptor of that username has a positive interval |
| Properties.FirstMatchDecides | server.js:112-113 | a witness: in a fleet whose first "u" descriptor has interval 0 and whose second has 5, `end` schedules no reconnect |
| Properties.LaterMatchIgnored | server.js:112-113 | for any fleet, setting the interval of a descriptor after the first match of the ending bot's username to any value leaves what `end` schedules unchanged |
| Properties.LoginArmsIffEnabled | server.js:66-74 | on a bot's first login the relogin timer is armed if and only if its descriptor's interval is positive, with delay interval * 60 * 1000 ms up to 35791 minutes and 1 ms beyond |
| Properties.LoginThenRelogin | server.js:66-74 | login then relogin firing: timer armed for interval * 60000 ms (clamped as Node.js does), then "logged in", "Scheduled relogin" and quit in that order; store and registry unchanged |
| Properties.EndThenReconnect | server.js:104-117 | `end` of a bot authorized to reconnect schedules one reconnect; its firing re-registers the name with a new bot from the same descriptor object |
| Properties.ReloginCycle | server.js:66-117 | the full relogin cycle ends with a new bot registered from the same descriptor object and the store unchanged |
| Properties.KickedThenEnd | server.js:95-118 | `kicked` followed by `end` schedules exactly what `end` alone would |
| Scenarios.AliceAdded | server.js:171-187 | adding a first bot: the exact fleet and observer inbox after the request, and the persist, create and broadcast effects in order |
| Scenarios.AliceLogsIn | server.js:66-75 | the just-added bot with interval 0 logs in: the fleet is unchanged, no relogin timer is armed, and the observer receives the login |
| Scenarios.AddAliceThenLogin | server.js:163-187 | connect, add a bot with interval 0, login: one stored descriptor, no relogin timer, and the observer sees the two lists and the login |
| Scenarios.EleventhBotRefused | server.js:172-175 | at 10 descriptors `addBot` changes no state and only the requester receives the capacity error |
| Scenarios.ReconnectIgnoresStore | server.js:114-117 | a pending reconnect registers a bot whose username is no longer in the store |
| Scenarios.AddDuplicateReplacesRegistration | server.js:176-187 | a second `addBot` of a registered username appends another descriptor and takes over the registry entry, while the earlier bot object persists |

## Left out

- The mineflayer client, the `ws` and `express` servers, the static files and the `/health` route
  (server.js:1-17, 216-219) are external plumbing. A bot is an opaque `Sid`. Client creation, `quit`
  and `chat` are the effects `Open`, `Quit` and `Chat`.
- Reading `config.json` and its fallbacks (server.js:19-40) are left out. `Lifecycle.Boot` takes the
  loaded list as a parameter. `saveConfig` (server.js:42-49) is the effect `Persist` with the list it
  writes. Write failures are not modelled.
- JSON parsing of observer messages (server.js:168-169) is left out. A message arrives already
  parsed as a `Request`, and malformed input is `Ignored`.
- Dynamic JSON typing is not modelled. Usernames, passwords, hosts and reasons are strings;
  `reloginInterval` and `port` are integers. A string, fractional or NaN interval is not represented.
  So the `|| 0` default reduces to "absent means 0".
- Lifecycle.AddBot: a request without a `server` object is modelled as failing before any change,
  which matches the TypeError thrown at server.js:179. A `server` object without `host` or `port`,
  and a missing `username`, are not represented.
- The anti-AFK interval body (server.js:80-92) uses `Math.random`, floating-point angles and movement
  of the opaque bot. Only the `afkArmed` flag that `end` clears is kept.
- Lifecycle.OnSpawn: a second `spawn` of the same bot overwrites the interval handle. In JavaScript
  the earlier interval keeps running, and `end` clears only the last one. The model's single flag
  does not count leaked intervals.
- Lifecycle.OnLogin: likewise, a second `login` with a positive interval replaces the single
  relogin token. In JavaScript the earlier timeout would still fire.
- Wall-clock time is not modelled. Any pending timer may fire next. The delays are recorded with
  the token (`interval * 60 * 1000` ms clamped by `TimerDelay`, `ReconnectDelayMs` = 5000 ms) but
  not enforced.
- `bot.username` is taken to be the descriptor's username. The client's own renaming is not
  modelled.
- Console logging is not modelled.

=== FILE: broadcast.dfy ===
/** The observer side of the WebSocket server: the set of connections, the
    fan-out of a broadcast, the reply to one requester, and the snapshot a new
    connection is greeted with. */
module Broadcast {
  import opened Descriptors
  import opened Effects

  /** One observer connection: whether it is open, and every message it has
      been sent so far, in order. */
  datatype Observer = Observer(open: bool, inbox: seq<Message>)

  /** `ws.send` on one connection: a closed connection receives nothing. */
  function SendTo(o: Observer, m: Message): (r: Observer)
    ensures r.open == o.open
    ensures o.open ==> r.inbox == o.inbox + [m]
    ensures !o.open ==> r == o
  {
    if o.open then o.(inbox := o.inbox + [m]) else o
  }

  /** `broadcast`: visits every connection in turn and sends to the open
      ones only; a closed connection is skipped and does not stop the rest. */
  function Deliver(obs: seq<Observer>, m: Message): (r: seq<Observer>)
    ensures |r| == |obs|
    ensures forall i :: 0 <= i < |obs| ==> r[i].open == obs[i].open
    ensures forall i :: 0 <= i < |obs| && obs[i].open ==> r[i].inbox == obs[i].inbox + [m]
    ensures forall i :: 0 <= i < |obs| && !obs[i].open ==> r[i] == obs[i]
  {
    if obs == [] then [] else [SendTo(obs[0], m)] + Deliver(obs[1..], m)
  }

  /** A reply to connection `k` alone. */
  function ReplyTo(obs: seq<Observer>, k: nat, m: Message): (r: seq<Observer>)
    ensures |r| == |obs|
    ensures forall i :: 0 <= i < |obs| ==> r[i].open == obs[i].open
    ensures forall i :: 0 <= i < |obs| && i != k ==> r[i] == obs[i]
    ensures k < |obs| && obs[k].open ==> r[k].inbox == obs[k].inbox + [m]
    ensures k < |obs| && !obs[k].open ==> r[k] == obs[k]
  {
    if k < |obs| then obs[k := SendTo(obs[k], m)] else obs
  }

  /** A new connection, which is sent the current descriptor list at once. */
  function Connect(obs: seq<Observer>, snapshot: seq<Descriptor>): (r: seq<Observer>)
    ensures |r| == |obs| + 1 && r[..|obs|] == obs
    ensures r[|obs|].open && r[|obs|].inbox == [Bots(snapshot)]
  {
    obs + [Observer(true, [Bots(snapshot)])]
  }

  /** Connection `k` closes; what it already received stays as it was. */
  function Close(obs: seq<Observer>, k: nat): (r: seq<Observer>)
    ensures |r| == |obs|
    ensures forall i :: 0 <= i < |obs| ==> r[i].inbox == obs[i].inbox
    ensures forall i :: 0 <= i < |obs| && i != k ==> r[i].open == obs[i].open
    ensures k < |obs| ==> !r[k].open
  {
    if k < |obs| then obs[k := obs[k].(open := false)] else obs
  }

  /** The messages connection `i` receives from a list of effects issued on
      behalf of `requester`. */
  function Received(effs: seq<Effect>, requester: Option<nat>, i: nat): seq<Message>
  {
    if requester == Some(i) then ToRequester(effs) else Broadcasts(effs)
  }

  /** Splits what a connection receives at the first effect. */
  lemma ReceivedCons(effs: seq<Effect>, requester: Option<nat>, i: nat)
    requires effs != []
    ensures Received(effs, requester, i)
            == Received(effs[..1], requester, i) + Received(effs[1..], requester, i)
  {
    assert effs == effs[..1] + effs[1..];
    BroadcastsAppend(effs[..1], effs[1..]);
    ToRequesterAppend(effs[..1], effs[1..]);
  }

  /** Performs one effect towards the observers. */
  function Perform(obs: seq<Observer>, requester: Option<nat>, e: Effect): (r: seq<Observer>)
    ensures |r| == |obs|
    ensures forall i :: 0 <= i < |obs| ==> r[i].open == obs[i].open
    ensures forall i :: 0 <= i < |obs| && !obs[i].open ==> r[i] == obs[i]
    ensures forall i :: 0 <= i < |obs| && obs[i].open ==>
              r[i].inbox == obs[i].inbox + Received([e], requester, i)
  {
    match e
    case Broadcast(m) => Deliver(obs, m)
    case Reply(m) => if requester.Some? then ReplyTo(obs, requester.value, m) else obs
    case _ => obs
  }

  /** What one connection receives from the first effect and from the rest
      adds up to what it receives from the whole list. */
  lemma DispatchStep(obs: seq<Observer>, next: seq<Observer>, r: seq<Observer>,
                     requester: Option<nat>, effs: seq<Effect>)
    requires effs != [] && |next| == |obs| && |r| == |obs|
    requires forall i :: 0 <= i < |obs| ==> next[i].open == obs[i].open
    requires forall i :: 0 <= i < |obs| && obs[i].open ==>
               next[i].inbox == obs[i].inbox + Received(effs[..1], requester, i)
    requires forall i :: 0 <= i < |obs| && next[i].open ==>
               r[i].inbox == next[i].inbox + Received(effs[1..], requester, i)
    ensures forall i :: 0 <= i < |obs| && obs[i].open ==>
              r[i].inbox == obs[i].inbox + Received(effs, requester, i)
  {
    forall i | 0 <= i < |obs| && obs[i].open
      ensures r[i].inbox == obs[i].inbox + Received(effs, requester, i)
    {
      var a := Received(effs[..1], requester, i);
      var b := Received(effs[1..], requester, i);
      ReceivedCons(effs, requester, i);
      assert next[i].open;
      assert r[i].inbox == (obs[i].inbox + a) + b;
      assert (obs[i].inbox + a) + b == obs[i].inbox + (a + b);
    }
  }

  /** Performs the observer-facing effects of one transition in order:
      broadcasts go to every open connection, replies to the requester. */
  function Dispatch(obs: seq<Observer>, requester: Option<nat>, effs: seq<Effect>): (r: seq<Observer>)
    ensures |r| == |obs|
    ensures forall i :: 0 <= i < |obs| ==> r[i].open == obs[i].open
    ensures forall i :: 0 <= i < |obs| && !obs[i].open ==> r[i] == obs[i]
    ensures forall i :: 0 <= i < |obs| && obs[i].open ==>
              r[i].inbox == obs[i].inbox + Received(effs, requester, i)
    decreases |effs|
  {
    if effs == [] then obs
    else
      var next := Perform(obs, requester, effs[0]);
      assert effs[..1] == [effs[0]];
      var r := Dispatch(next, requester, effs[1..]);
      DispatchStep(obs, next, r, requester, effs);
      r
  }
}

=== FILE: descriptors.dfy ===
/** The persisted bot descriptors (the elements of `config.bots`) and the
    list operations the server performs on them: `find` by username and
    `filter` by username. */
module Descriptors {

  datatype Option<T> = None | Some(value: T)

  /** The game server a bot connects to. */
  datatype Endpoint = Endpoint(host: string, port: int)

  /** One bot descriptor. `reloginInterval` is in minutes; a value that is
      not positive disables both the scheduled relogin and the reconnect. */
  datatype Descriptor = Descriptor(
    username: string,
    password: Option<string>,
    server: Endpoint,
    commands: seq<string>,
    reloginInterval: int)

  /** The identity of a descriptor object: its index in the heap of every
      descriptor object ever allocated. JavaScript code holds descriptors by
      reference, and a session keeps the object it was created from. */
  type Ref = nat

  /** Whether a descriptor asks for scheduled relogins: its interval is set
      and positive. With integer intervals, "set" adds nothing to "positive". */
  predicate ReloginEnabled(d: Descriptor)
  {
    d.reloginInterval > 0
  }

  predicate RefsIn(heap: seq<Descriptor>, refs: seq<Ref>)
  {
    forall i :: 0 <= i < |refs| ==> refs[i] < |heap|
  }

  /** No descriptor object appears twice in a list of references. */
  predicate Distinct(refs: seq<Ref>)
  {
    forall i, j :: 0 <= i < j < |refs| ==> refs[i] != refs[j]
  }

  /** The descriptor values a list of references denotes. */
  function Resolve(heap: seq<Descriptor>, refs: seq<Ref>): (ds: seq<Descriptor>)
    requires RefsIn(heap, refs)
    ensures |ds| == |refs|
    ensures forall i :: 0 <= i < |refs| ==> ds[i] == heap[refs[i]]
  {
    if refs == [] then [] else [heap[refs[0]]] + Resolve(heap, refs[1..])
  }

  /** Lookup by username as `find` does it: the position of the first
      descriptor with that username, if any. */
  function FirstIndex(ds: seq<Descriptor>, u: string): (r: Option<nat>)
    ensures r.Some? ==> r.value < |ds| && ds[r.value].username == u
    ensures r.Some? ==> forall j :: 0 <= j < r.value ==> ds[j].username != u
    ensures r.None? <==> forall j :: 0 <= j < |ds| ==> ds[j].username != u
  {
    if ds == [] then None
    else if ds[0].username == u then Some(0)
    else
      match FirstIndex(ds[1..], u)
      case None => None
      case Some(k) => Some(k + 1)
  }

  /** Filtering by username: the descriptors whose username differs from
      `u`, in their original order. */
  function WithoutUser(ds: seq<Descriptor>, u: string): (r: seq<Descriptor>)
    ensures |r| <= |ds|
    ensures forall d :: d in r <==> d in ds && d.username != u
  {
    if ds == [] then []
    else if ds[0].username == u then WithoutUser(ds[1..], u)
    else [ds[0]] + WithoutUser(ds[1..], u)
  }

  /** The same filter applied to the references of the store, looking each
      object's username up in the heap. */
  function KeepOthers(heap: seq<Descriptor>, refs: seq<Ref>, u: string): (r: seq<Ref>)
    requires RefsIn(heap, refs)
    ensures RefsIn(heap, r)
    ensures forall x :: x in r <==> x in refs && heap[x].username != u
    ensures Resolve(heap, r) == WithoutUser(Resolve(heap, refs), u)
  {
    if refs == [] then []
    else if heap[refs[0]].username == u then KeepOthers(heap, refs[1..], u)
    else [refs[0]] + KeepOthers(heap, refs[1..], u)
  }

  /** Replacing the object behind the `i`-th of distinct references changes
      the denoted list at position `i` only. */
  lemma ResolveUpdate(heap: seq<Descriptor>, refs: seq<Ref>, i: nat, d: Descriptor)
    requires RefsIn(heap, refs) && Distinct(refs) && i < |refs|
    ensures RefsIn(heap[refs[i] := d], refs)
    ensures Resolve(heap[refs[i] := d], refs) == Resolve(heap, refs)[i := d]
  {
    assert forall j :: 0 <= j < |refs| && j != i ==> refs[j] != refs[i];
  }

  /** Filtering distributes over concatenation: the descriptors that survive
      keep their relative order. */
  lemma {:induction false} WithoutUserAppend(a: seq<Descriptor>, b: seq<Descriptor>, u: string)
    ensures WithoutUser(a + b, u) == WithoutUser(a, u) + WithoutUser(b, u)
  {
    if a == [] {
      assert a + b == b;
    } else {
      assert (a + b)[1..] == a[1..] + b;
      WithoutUserAppend(a[1..], b, u);
    }
  }

  /** Filtering references distributes over concatenation: the surviving
      references keep their relative order, even among objects of equal
      value. */
  lemma {:induction false} KeepOthersAppend(heap: seq<Descriptor>, a: seq<Ref>, b: seq<Ref>, u: string)
    requires RefsIn(heap, a) && RefsIn(heap, b)
    ensures RefsIn(heap, a + b)
    ensures KeepOthers(heap, a + b, u) == KeepOthers(heap, a, u) + KeepOthers(heap, b, u)
  {
    if a == [] {
      assert a + b == b;
    } else {
      var ab := a + b;
      assert ab[0] == a[0] && ab[1..] == a[1..] + b;
      KeepOthersAppend(heap, a[1..], b, u);
      if heap[a[0]].username == u {
        assert KeepOthers(heap, ab, u) == KeepOthers(heap, a[1..] + b, u);
      } else {
        assert KeepOthers(heap, ab, u) == [a[0]] + KeepOthers(heap, a[1..] + b, u);
        ConcatAssoc([a[0]], KeepOthers(heap, a[1..], u), KeepOthers(heap, b, u));
      }
    }
  }

  lemma ConcatAssoc(x: seq<Ref>, y: seq<Ref>, z: seq<Ref>)
    ensures x + (y + z) == (x + y) + z
  {
  }

  /** Filtering a list that holds no descriptor of `u` leaves it unchanged. */
  lemma {:induction false} WithoutUserAbsent(ds: seq<Descriptor>, u: string)
    requires forall j :: 0 <= j < |ds| ==> ds[j].username != u
    ensures WithoutUser(ds, u) == ds
  {
    if ds != [] {
      WithoutUserAbsent(ds[1..], u);
    }
  }

  /** Filtering keeps a list of distinct references distinct. */
  lemma {:induction false} KeepOthersDistinct(heap: seq<Descriptor>, refs: seq<Ref>, u: string)
    requires RefsIn(heap, refs)
    requires Distinct(refs)
    ensures Distinct(KeepOthers(heap, refs, u))
  {
    if refs != [] {
      KeepOthersDistinct(heap, refs[1..], u);
      var tail := KeepOthers(heap, refs[1..], u);
      assert refs[0] !in refs[1..];
      assert refs[0] !in tail;
    }
  }
}

=== FILE: effects.dfy ===
/** What the server says to its observers and asks of its collaborators.
    Every handler returns the list of effects it performs, in order. */
module Effects {
  import opened Descriptors

  /** A bot object's identity: its index among all bot objects ever created. */
  type Sid = nat

  /** The JSON messages sent over the observer channel. */
  datatype Message =
    | Status(username: string, status: string)
    | Bots(bots: seq<Descriptor>)
    | Error(message: string)

  /** The options handed to the game client when a bot object is created. */
  datatype ConnectOptions = ConnectOptions(
    host: string,
    port: int,
    username: string,
    password: Option<string>,
    version: string)

  /** One observable action of a handler. */
  datatype Effect =
    | Broadcast(msg: Message)                          // to every open observer
    | Reply(msg: Message)                              // to the requesting observer only
    | Persist(bots: seq<Descriptor>)                   // the whole config file rewritten
    | Open(session: Sid, options: ConnectOptions)      // a new bot object created
    | Quit(session: Sid)                               // graceful disconnect requested
    | Chat(session: Sid, text: string)                 // chat line sent by a bot

  const ClientVersion := "1.20.1"
  const CapacityMessage := "Maximum 10 bots allowed"

  /** The options built from a descriptor; an empty password counts as none,
      as `botConfig.password || undefined` does. */
  function OptionsFor(d: Descriptor): (o: ConnectOptions)
    ensures o.host == d.server.host && o.port == d.server.port
    ensures o.username == d.username
    ensures o.password.Some? <==> d.password.Some? && d.password.value != ""
    ensures o.password.Some? ==> o.password == d.password
    ensures o.version == ClientVersion
  {
    var pw := match d.password
      case Some(p) => if p == "" then None else Some(p)
      case None => None;
    ConnectOptions(d.server.host, d.server.port, d.username, pw, ClientVersion)
  }

  /** The messages a list of effects broadcasts, in order. */
  function Broadcasts(effs: seq<Effect>): (ms: seq<Message>)
    ensures |ms| <= |effs|
  {
    if effs == [] then []
    else if effs[0].Broadcast? then [effs[0].msg] + Broadcasts(effs[1..])
    else Broadcasts(effs[1..])
  }

  /** The messages a list of effects sends to the requester, in order:
      every broadcast and every reply. */
  function ToRequester(effs: seq<Effect>): (ms: seq<Message>)
    ensures |Broadcasts(effs)| <= |ms| <= |effs|
  {
    if effs == [] then []
    else if effs[0].Broadcast? || effs[0].Reply? then [effs[0].msg] + ToRequester(effs[1..])
    else ToRequester(effs[1..])
  }

  lemma {:induction false} BroadcastsAppend(a: seq<Effect>, b: seq<Effect>)
    ensures Broadcasts(a + b) == Broadcasts(a) + Broadcasts(b)
  {
    if a == [] {
      assert a + b == b;
    } else {
      assert (a + b)[0] == a[0];
      assert (a + b)[1..] == a[1..] + b;
      BroadcastsAppend(a[1..], b);
    }
  }

  lemma {:induction false} ToRequesterAppend(a: seq<Effect>, b: seq<Effect>)
    ensures ToRequester(a + b) == ToRequester(a) + ToRequester(b)
  {
    if a == [] {
      assert a + b == b;
    } else {
      assert (a + b)[0] == a[0];
      assert (a + b)[1..] == a[1..] + b;
      ToRequesterAppend(a[1..], b);
    }
  }

  /** A message is broadcast exactly when the effects include its broadcast;
      the requester receives exactly the broadcasts and the replies. */
  lemma {:induction false} BroadcastsMembers(effs: seq<Effect>, m: Message)
    ensures m in Broadcasts(effs) <==> Broadcast(m) in effs
    ensures m in ToRequester(effs) <==> Broadcast(m) in effs || Reply(m) in effs
  {
    if effs != [] {
      BroadcastsMembers(effs[1..], m);
      assert effs == [effs[0]] + effs[1..];
    }
  }

  // Status texts, as the handlers word them.
  const LoggedIn := "logged in"
  const Spawned := "spawned"
  const ScheduledRelogin := "Scheduled relogin"
  const Disconnected := "disconnected"
  const Stopped := "stopped"

  function KickedStatus(reason: string): string { "kicked: " + reason }
  function ErrorStatus(err: string): string { "error: " + err }
  function PacketErrorStatus(message: string): string { "packet error: " + message }
  function SentStatus(command: string): string { "sent command: " + command }
}

=== FILE: lifecycle.dfy ===
/** The fleet lifecycle state machine: the descriptor store (`config.bots`),
    the live-session registry (the `bots` map), the bot objects with their
    timer handles, and the pending reconnect timers, together with one pure
    transition per control command, session callback and timer firing. */
module Lifecycle {
  import opened Descriptors
  import opened Effects

  /** The fleet limit checked by `addBot`. */
  const MaxBots: nat := 10

  /** Delay of the reconnect scheduled by `end`, in milliseconds. */
  const ReconnectDelayMs: int := 5000

  /** Milliseconds in one minute of relogin interval. */
  const MsPerMinute: int := 60 * 1000

  /** The longest delay a Node.js timer honours: a signed 32-bit count of
      milliseconds. */
  const MaxTimerDelayMs: int := 2147483647

  /** The delay a Node.js timeout actually runs with when asked for `ms`
      milliseconds: a delay above the 32-bit limit, or below 1, becomes 1 ms. */
  function TimerDelay(ms: int): (d: int)
    ensures 1 <= d <= MaxTimerDelayMs
    ensures 1 <= ms <= MaxTimerDelayMs ==> d == ms
    ensures ms < 1 || MaxTimerDelayMs < ms ==> d == 1
  {
    if ms < 1 || MaxTimerDelayMs < ms then 1 else ms
  }

  /** A bot object together with the timer handles its closure holds. */
  datatype Session = Session(
    username: string,
    config: Ref,           // the descriptor object the bot was created from
    relogin: Option<int>,  // the pending relogin timer, with its delay in ms
    afkArmed: bool)        // the anti-AFK interval is running

  /** A pending reconnect timer and the descriptor object it captured. */
  datatype Reconnect = Reconnect(config: Ref, delayMs: int)

  datatype Fleet = Fleet(
    heap: seq<Descriptor>,        // every descriptor object ever allocated
    store: seq<Ref>,              // config.bots, in order
    sessions: seq<Session>,       // every bot object ever created
    registry: map<string, Sid>,   // the live-session map, by username
    reconnects: seq<Reconnect>)   // reconnect timers not yet fired

  /** The state after a transition and what the transition did, in order. */
  datatype Out = Out(fleet: Fleet, effects: seq<Effect>)

  /** Session callbacks of the game client. */
  datatype Callback =
    | Login
    | Spawn
    | Kicked(reason: string)
    | Failed(err: string)
    | PacketError(message: string)
    | End

  /** An `addBot` request as parsed from JSON; `server` is absent when the
      request carries no `server` object. */
  datatype AddRequest = AddRequest(
    username: string,
    password: Option<string>,
    server: Option<Endpoint>,
    reloginInterval: Option<int>)

  /** A control message from an observer, by its `type`: `addBot`,
      `removeBot`, `sendCommand`, `stopBot`. `Ignored` stands for unparsable
      JSON and unknown message types. */
  datatype Request =
    | Add(add: AddRequest)
    | Remove(username: string)
    | Command(username: string, command: string)
    | Stop(username: string)
    | Ignored

  /** Every reference points into the heap, the store holds each object at
      most once, and the registry maps a username to a bot of that name. */
  predicate Valid(f: Fleet)
  {
    && RefsIn(f.heap, f.store)
    && Distinct(f.store)
    && (forall i :: 0 <= i < |f.sessions| ==> f.sessions[i].config < |f.heap|)
    && (forall i :: 0 <= i < |f.sessions| ==>
          f.sessions[i].username == f.heap[f.sessions[i].config].username)
    && (forall u :: u in f.registry ==>
          f.registry[u] < |f.sessions| && f.sessions[f.registry[u]].username == u)
    && (forall i :: 0 <= i < |f.reconnects| ==> f.reconnects[i].config < |f.heap|)
  }

  /** The descriptor list as `config.bots` holds it right now. */
  function Snapshot(f: Fleet): seq<Descriptor>
    requires Valid(f)
  {
    Resolve(f.heap, f.store)
  }

  /** `f2` differs from `f` at most in the timer handles of bot `sid`. */
  predicate TimersOnly(f: Fleet, f2: Fleet, sid: Sid)
    requires sid < |f.sessions|
  {
    && f2.heap == f.heap && f2.store == f.store
    && f2.registry == f.registry && f2.reconnects == f.reconnects
    && |f2.sessions| == |f.sessions|
    && f2.sessions[sid].username == f.sessions[sid].username
    && f2.sessions[sid].config == f.sessions[sid].config
    && forall j :: 0 <= j < |f.sessions| && j != sid ==> f2.sessions[j] == f.sessions[j]
  }

  /** The descriptor `addBot` builds: no commands, and a relogin interval of
      0 when the request gives none. */
  function NewDescriptor(req: AddRequest, server: Endpoint): (d: Descriptor)
    ensures d.username == req.username && d.password == req.password
    ensures d.server == server && d.commands == []
    ensures req.reloginInterval.None? ==> d.reloginInterval == 0
    ensures req.reloginInterval.Some? ==> d.reloginInterval == req.reloginInterval.value
  {
    var interval := match req.reloginInterval
      case None => 0
      case Some(n) => n;
    Descriptor(req.username, req.password, server, [], interval)
  }

  // ---------------------------------------------------------------------
  // createBot

  /** Creates a bot object from descriptor object `r` and registers it under
      its username, replacing any bot registered there before. */
  function CreateBot(f: Fleet, r: Ref): (o: Out)
    requires Valid(f) && r < |f.heap|
    ensures Valid(o.fleet)
    ensures o.fleet.heap == f.heap && o.fleet.store == f.store
    ensures o.fleet.reconnects == f.reconnects
    ensures |o.fleet.sessions| == |f.sessions| + 1
    ensures forall j :: 0 <= j < |f.sessions| ==> o.fleet.sessions[j] == f.sessions[j]
    ensures o.fleet.sessions[|f.sessions|].config == r
    ensures o.fleet.sessions[|f.sessions|].relogin.None?
    ensures !o.fleet.sessions[|f.sessions|].afkArmed
    ensures o.fleet.registry.Keys == f.registry.Keys + {f.heap[r].username}
    ensures o.fleet.registry[f.heap[r].username] == |f.sessions|
    ensures forall u :: u in f.registry && u != f.heap[r].username ==>
              o.fleet.registry[u] == f.registry[u]
    ensures o.effects == [Open(|f.sessions|, OptionsFor(f.heap[r]))]
  {
    var d := f.heap[r];
    var sid := |f.sessions|;
    var f2 := f.(sessions := f.sessions + [Session(d.username, r, None, false)],
                 registry := f.registry[d.username := sid]);
    Out(f2, [Open(sid, OptionsFor(d))])
  }

  // ---------------------------------------------------------------------
  // Session callbacks

  /** `login`: reports the login and, when the bot's descriptor object has a
      positive relogin interval, arms the relogin timer for that many minutes,
      as far as a Node.js timer can count them. Otherwise an earlier handle is
      left as it was. */
  function OnLogin(f: Fleet, sid: Sid): (o: Out)
    requires Valid(f)
    ensures Valid(o.fleet)
    ensures sid >= |f.sessions| ==> o == Out(f, [])
    ensures sid < |f.sessions| ==>
              var s := f.sessions[sid];
              var d := f.heap[s.config];
              && TimersOnly(f, o.fleet, sid)
              && o.fleet.sessions[sid].afkArmed == s.afkArmed
              && (ReloginEnabled(d) ==>
                    o.fleet.sessions[sid].relogin == Some(TimerDelay(d.reloginInterval * MsPerMinute)))
              && (!ReloginEnabled(d) ==> o.fleet.sessions[sid].relogin == s.relogin)
              && o.effects == [Broadcast(Status(s.username, LoggedIn))]
  {
    if sid >= |f.sessions| then Out(f, [])
    else
      var s := f.sessions[sid];
      var d := f.heap[s.config];
      var s2 := if ReloginEnabled(d) then s.(relogin := Some(TimerDelay(d.reloginInterval * MsPerMinute))) else s;
      Out(f.(sessions := f.sessions[sid := s2]), [Broadcast(Status(s.username, LoggedIn))])
  }

  /** `spawn`: reports the spawn and starts the anti-AFK interval. */
  function OnSpawn(f: Fleet, sid: Sid): (o: Out)
    requires Valid(f)
    ensures Valid(o.fleet)
    ensures sid >= |f.sessions| ==> o == Out(f, [])
    ensures sid < |f.sessions| ==>
              && TimersOnly(f, o.fleet, sid)
              && o.fleet.sessions[sid].afkArmed
              && o.fleet.sessions[sid].relogin == f.sessions[sid].relogin
              && o.effects == [Broadcast(Status(f.sessions[sid].username, Spawned))]
  {
    if sid >= |f.sessions| then Out(f, [])
    else
      var s := f.sessions[sid];
      Out(f.(sessions := f.sessions[sid := s.(afkArmed := true)]),
          [Broadcast(Status(s.username, Spawned))])
  }

  /** `kicked`: reports the reason and drops the bot's username from the
      registry. No reconnect is scheduled here; that is left to `end`. */
  function OnKicked(f: Fleet, sid: Sid, reason: string): (o: Out)
    requires Valid(f)
    ensures Valid(o.fleet)
    ensures sid >= |f.sessions| ==> o == Out(f, [])
    ensures sid < |f.sessions| ==>
              var u := f.sessions[sid].username;
              && o.fleet.heap == f.heap && o.fleet.store == f.store
              && o.fleet.sessions == f.sessions && o.fleet.reconnects == f.reconnects
              && o.fleet.registry.Keys == f.registry.Keys - {u}
              && (forall v :: v in o.fleet.registry ==> o.fleet.registry[v] == f.registry[v])
              && o.effects == [Broadcast(Status(u, KickedStatus(reason)))]
  {
    if sid >= |f.sessions| then Out(f, [])
    else
      var u := f.sessions[sid].username;
      Out(f.(registry := f.registry - {u}), [Broadcast(Status(u, KickedStatus(reason)))])
  }

  /** `error`: reports the error and changes nothing else. */
  function OnError(f: Fleet, sid: Sid, err: string): (o: Out)
    requires Valid(f)
    ensures o.fleet == f
    ensures sid >= |f.sessions| ==> o.effects == []
    ensures sid < |f.sessions| ==>
              o.effects == [Broadcast(Status(f.sessions[sid].username, ErrorStatus(err)))]
  {
    if sid >= |f.sessions| then Out(f, [])
    else Out(f, [Broadcast(Status(f.sessions[sid].username, ErrorStatus(err)))])
  }

  /** `packetError`: reports the error and changes nothing else. */
  function OnPacketError(f: Fleet, sid: Sid, message: string): (o: Out)
    requires Valid(f)
    ensures o.fleet == f
    ensures sid >= |f.sessions| ==> o.effects == []
    ensures sid < |f.sessions| ==>
              o.effects == [Broadcast(Status(f.sessions[sid].username, PacketErrorStatus(message)))]
  {
    if sid >= |f.sessions| then Out(f, [])
    else Out(f, [Broadcast(Status(f.sessions[sid].username, PacketErrorStatus(message)))])
  }

  /** Whether `end` for a bot named `u` schedules a reconnect: the FIRST
      descriptor of that name in the store has a positive interval. */
  function ReconnectAuthorized(f: Fleet, u: string): (b: bool)
    requires Valid(f)
    ensures b <==> exists i :: 0 <= i < |Snapshot(f)| && Snapshot(f)[i].username == u
                               && ReloginEnabled(Snapshot(f)[i])
                               && forall j :: 0 <= j < i ==> Snapshot(f)[j].username != u
  {
    var i := FirstIndex(Snapshot(f), u);
    i.Some? && ReloginEnabled(Snapshot(f)[i.value])
  }

  /** `end`: clears both timers, reports the disconnect, drops the username
      from the registry (whichever bot is registered under it) and, when the
      store still authorizes it, schedules a reconnect with the descriptor
      object found in the store. */
  function OnEnd(f: Fleet, sid: Sid): (o: Out)
    requires Valid(f)
    ensures Valid(o.fleet)
    ensures sid >= |f.sessions| ==> o == Out(f, [])
    ensures sid < |f.sessions| ==>
              var u := f.sessions[sid].username;
              && o.fleet.heap == f.heap && o.fleet.store == f.store
              && |o.fleet.sessions| == |f.sessions|
              && (forall j :: 0 <= j < |f.sessions| && j != sid ==> o.fleet.sessions[j] == f.sessions[j])
              && o.fleet.sessions[sid].relogin.None? && !o.fleet.sessions[sid].afkArmed
              && o.fleet.sessions[sid].username == u
              && o.fleet.sessions[sid].config == f.sessions[sid].config
              && o.fleet.registry.Keys == f.registry.Keys - {u}
              && (forall v :: v in o.fleet.registry ==> o.fleet.registry[v] == f.registry[v])
              && o.effects == [Broadcast(Status(u, Disconnected))]
              && (!ReconnectAuthorized(f, u) ==> o.fleet.reconnects == f.reconnects)
              && (ReconnectAuthorized(f, u) ==>
                    var i := FirstIndex(Snapshot(f), u).value;
                    o.fleet.reconnects == f.reconnects + [Reconnect(f.store[i], ReconnectDelayMs)])
  {
    if sid >= |f.sessions| then Out(f, [])
    else
      var s := f.sessions[sid];
      var u := s.username;
      var f2 := f.(sessions := f.sessions[sid := s.(relogin := None, afkArmed := false)],
                   registry := f.registry - {u});
      var found := FirstIndex(Snapshot(f), u);
      var f3 :=
        if found.Some? && ReloginEnabled(f.heap[f.store[found.value]])
        then f2.(reconnects := f.reconnects + [Reconnect(f.store[found.value], ReconnectDelayMs)])
        else f2;
      Out(f3, [Broadcast(Status(u, Disconnected))])
  }

  /** Dispatches one session callback of bot `sid`. */
  function OnCallback(f: Fleet, sid: Sid, cb: Callback): (o: Out)
    requires Valid(f)
    ensures Valid(o.fleet)
    ensures |o.fleet.heap| == |f.heap| && |o.fleet.store| == |f.store|
    ensures cb.Login? ==> o == OnLogin(f, sid)
    ensures cb.Spawn? ==> o == OnSpawn(f, sid)
    ensures cb.Kicked? ==> o == OnKicked(f, sid, cb.reason)
    ensures cb.Failed? ==> o == OnError(f, sid, cb.err)
    ensures cb.PacketError? ==> o == OnPacketError(f, sid, cb.message)
    ensures cb.End? ==> o == OnEnd(f, sid)
  {
    match cb
    case Login => OnLogin(f, sid)
    case Spawn => OnSpawn(f, sid)
    case Kicked(reason) => OnKicked(f, sid, reason)
    case Failed(err) => OnError(f, sid, err)
    case PacketError(message) => OnPacketError(f, sid, message)
    case End => OnEnd(f, sid)
  }

  // ---------------------------------------------------------------------
  // Timer firings

  /** The relogin timer of bot `sid` fires: it reports the scheduled relogin
      and asks the bot to quit; the timer is spent. A bot with no pending
      relogin timer has nothing to fire. */
  function ReloginDue(f: Fleet, sid: Sid): (o: Out)
    requires Valid(f)
    ensures Valid(o.fleet)
    ensures sid >= |f.sessions| || f.sessions[sid].relogin.None? ==> o == Out(f, [])
    ensures sid < |f.sessions| && f.sessions[sid].relogin.Some? ==>
              && TimersOnly(f, o.fleet, sid)
              && o.fleet.sessions[sid].relogin.None?
              && o.fleet.sessions[sid].afkArmed == f.sessions[sid].afkArmed
              && o.effects == [Broadcast(Status(f.sessions[sid].username, ScheduledRelogin)), Quit(sid)]
  {
    if sid >= |f.sessions| || f.sessions[sid].relogin.None? then Out(f, [])
    else
      var s := f.sessions[sid];
      Out(f.(sessions := f.sessions[sid := s.(relogin := None)]),
          [Broadcast(Status(s.username, ScheduledRelogin)), Quit(sid)])
  }

  /** Pending reconnect timer `k` fires: a bot is created from the captured
      descriptor object, whether or not the store still holds it. */
  function ReconnectDue(f: Fleet, k: nat): (o: Out)
    requires Valid(f)
    ensures Valid(o.fleet)
    ensures k >= |f.reconnects| ==> o == Out(f, [])
    ensures k < |f.reconnects| ==>
              var r := f.reconnects[k].config;
              var u := f.heap[r].username;
              && o.fleet.heap == f.heap && o.fleet.store == f.store
              && o.fleet.reconnects == f.reconnects[..k] + f.reconnects[k + 1..]
              && |o.fleet.sessions| == |f.sessions| + 1
              && (forall j :: 0 <= j < |f.sessions| ==> o.fleet.sessions[j] == f.sessions[j])
              && o.fleet.sessions[|f.sessions|].config == r
              && o.fleet.sessions[|f.sessions|].relogin.None?
              && !o.fleet.sessions[|f.sessions|].afkArmed
              && o.fleet.registry.Keys == f.registry.Keys + {u}
              && o.fleet.registry[u] == |f.sessions|
              && (forall v :: v in f.registry && v != u ==> o.fleet.registry[v] == f.registry[v])
              && o.effects == [Open(|f.sessions|, OptionsFor(f.heap[r]))]
  {
    if k >= |f.reconnects| then Out(f, [])
    else
      var t := f.reconnects[k];
      var f2 := f.(reconnects := f.reconnects[..k] + f.reconnects[k + 1..]);
      assert forall i :: 0 <= i < |f2.reconnects| ==> f2.reconnects[i] in f.reconnects;
      CreateBot(f2, t.config)
  }

  // ---------------------------------------------------------------------
  // Control commands

  /** `addBot`: refused with an error to the requester when the store holds
      10 or more descriptors; otherwise appends a new descriptor object,
      persists, creates its bot and broadcasts the new list. A request
      without a `server` object fails before anything changes. */
  function AddBot(f: Fleet, req: AddRequest): (o: Out)
    requires Valid(f)
    ensures Valid(o.fleet)
    ensures |f.store| >= MaxBots ==> o == Out(f, [Reply(Error(CapacityMessage))])
    ensures |f.store| < MaxBots && req.server.None? ==> o == Out(f, [])
    ensures |f.store| < MaxBots && req.server.Some? ==>
              var d := NewDescriptor(req, req.server.value);
              var sid := |f.sessions|;
              && Snapshot(o.fleet) == Snapshot(f) + [d]
              && o.fleet.heap == f.heap + [d]
              && o.fleet.store == f.store + [|f.heap|]
              && |o.fleet.sessions| == sid + 1
              && (forall j :: 0 <= j < sid ==> o.fleet.sessions[j] == f.sessions[j])
              && o.fleet.sessions[sid].config == |f.heap|
              && o.fleet.sessions[sid].relogin.None? && !o.fleet.sessions[sid].afkArmed
              && o.fleet.registry.Keys == f.registry.Keys + {req.username}
              && o.fleet.registry[req.username] == sid
              && (forall u :: u in f.registry && u != req.username ==> o.fleet.registry[u] == f.registry[u])
              && o.fleet.reconnects == f.reconnects
              && o.effects == [Persist(Snapshot(o.fleet)), Open(sid, OptionsFor(d)),
                               Broadcast(Bots(Snapshot(o.fleet)))]
  {
    if |f.store| >= MaxBots then Out(f, [Reply(Error(CapacityMessage))])
    else if req.server.None? then Out(f, [])
    else
      var d := NewDescriptor(req, req.server.value);
      var r := |f.heap|;
      var f2 := f.(heap := f.heap + [d], store := f.store + [r]);
      assert Valid(f2);
      assert Snapshot(f2) == Snapshot(f) + [d];
      var c := CreateBot(f2, r);
      Out(c.fleet, [Persist(Snapshot(f2))] + c.effects + [Broadcast(Bots(Snapshot(c.fleet)))])
  }

  /** `removeBot`: only when a bot is registered under `u`, asks it to quit,
      removes every descriptor named `u` from the store, persists, drops `u`
      from the registry and broadcasts the new list. */
  function RemoveBot(f: Fleet, u: string): (o: Out)
    requires Valid(f)
    ensures Valid(o.fleet)
    ensures u !in f.registry ==> o == Out(f, [])
    ensures u in f.registry ==>
              && o.fleet.store == KeepOthers(f.heap, f.store, u)
              && Snapshot(o.fleet) == WithoutUser(Snapshot(f), u)
              && o.fleet.heap == f.heap && o.fleet.sessions == f.sessions
              && o.fleet.reconnects == f.reconnects
              && o.fleet.registry.Keys == f.registry.Keys - {u}
              && (forall v :: v in o.fleet.registry ==> o.fleet.registry[v] == f.registry[v])
              && o.effects == [Quit(f.registry[u]), Persist(Snapshot(o.fleet)),
                               Broadcast(Bots(Snapshot(o.fleet)))]
  {
    if u !in f.registry then Out(f, [])
    else
      var store := KeepOthers(f.heap, f.store, u);
      KeepOthersDistinct(f.heap, f.store, u);
      var f2 := f.(store := store, registry := f.registry - {u});
      Out(f2, [Quit(f.registry[u]), Persist(Snapshot(f2)), Broadcast(Bots(Snapshot(f2)))])
  }

  /** The store after `stopBot` zeroes the interval of the first descriptor
      named `u`, if there is one. */
  function ZeroFirst(f: Fleet, u: string): (f2: Fleet)
    requires Valid(f)
    ensures Valid(f2)
    ensures f2.store == f.store && |f2.heap| == |f.heap|
    ensures f2.sessions == f.sessions && f2.registry == f.registry && f2.reconnects == f.reconnects
    ensures FirstIndex(Snapshot(f), u).None? ==> f2 == f
    ensures FirstIndex(Snapshot(f), u).Some? ==>
              var i := FirstIndex(Snapshot(f), u).value;
              && f2.heap == f.heap[f.store[i] := f.heap[f.store[i]].(reloginInterval := 0)]
              && Snapshot(f2) == Snapshot(f)[i := Snapshot(f)[i].(reloginInterval := 0)]
  {
    match FirstIndex(Snapshot(f), u)
    case None => f
    case Some(i) =>
      var r := f.store[i];
      var d := f.heap[r].(reloginInterval := 0);
      ResolveUpdate(f.heap, f.store, i, d);
      ValidHeapUpdate(f, r, d);
      f.(heap := f.heap[r := d])
  }

  /** Replacing a descriptor object by one of the same username keeps the
      fleet valid. */
  lemma ValidHeapUpdate(f: Fleet, r: Ref, d: Descriptor)
    requires Valid(f) && r < |f.heap| && d.username == f.heap[r].username
    ensures Valid(f.(heap := f.heap[r := d]))
  {
    var f2 := f.(heap := f.heap[r := d]);
    assert forall k :: 0 <= k < |f.heap| ==> f2.heap[k].username == f.heap[k].username;
  }

  /** Drops `u` from the registry and changes nothing else. */
  function Unregister(f: Fleet, u: string): (f2: Fleet)
    requires Valid(f)
    ensures Valid(f2)
    ensures f2.heap == f.heap && f2.store == f.store
    ensures f2.sessions == f.sessions && f2.reconnects == f.reconnects
    ensures Snapshot(f2) == Snapshot(f)
    ensures f2.registry.Keys == f.registry.Keys - {u}
    ensures forall v :: v in f2.registry ==> f2.registry[v] == f.registry[v]
  {
    f.(registry := f.registry - {u})
  }

  /** `stopBot`: only when a bot is registered under `u`, zeroes the relogin
      interval of the first descriptor named `u` and persists, asks the bot
      to quit, drops `u` from the registry and broadcasts "stopped" and the
      new list. */
  function StopBot(f: Fleet, u: string): (o: Out)
    requires Valid(f)
    ensures Valid(o.fleet)
    ensures u !in f.registry ==> o == Out(f, [])
    ensures u in f.registry ==>
              && o.fleet.store == f.store && o.fleet.sessions == f.sessions
              && o.fleet.reconnects == f.reconnects
              && o.fleet.registry.Keys == f.registry.Keys - {u}
              && (forall v :: v in o.fleet.registry ==> o.fleet.registry[v] == f.registry[v])
              && (FirstIndex(Snapshot(f), u).None? ==>
                    && o.fleet.heap == f.heap
                    && Snapshot(o.fleet) == Snapshot(f)
                    && o.effects == [Quit(f.registry[u]), Broadcast(Status(u, Stopped)),
                                     Broadcast(Bots(Snapshot(o.fleet)))])
              && (FirstIndex(Snapshot(f), u).Some? ==>
                    var i := FirstIndex(Snapshot(f), u).value;
                    && o.fleet.heap == f.heap[f.store[i] := f.heap[f.store[i]].(reloginInterval := 0)]
                    && Snapshot(o.fleet) == Snapshot(f)[i := Snapshot(f)[i].(reloginInterval := 0)]
                    && o.effects == [Persist(Snapshot(o.fleet)), Quit(f.registry[u]),
                                     Broadcast(Status(u, Stopped)), Broadcast(Bots(Snapshot(o.fleet)))])
  {
    if u !in f.registry then Out(f, [])
    else
      var f3 := Unregister(ZeroFirst(f, u), u);
      var s3 := Snapshot(f3);
      var quit := Quit(f.registry[u]);
      var stopped := Broadcast(Status(u, Stopped));
      if FirstIndex(Snapshot(f), u).Some? then Out(f3, [Persist(s3), quit, stopped, Broadcast(Bots(s3))])
      else Out(f3, [quit, stopped, Broadcast(Bots(s3))])
  }

  /** `sendCommand`: only when a bot is registered under `u`, has it chat the
      command and reports that it did. */
  function SendCommand(f: Fleet, u: string, command: string): (o: Out)
    requires Valid(f)
    ensures o.fleet == f
    ensures u !in f.registry ==> o.effects == []
    ensures u in f.registry ==>
              o.effects == [Chat(f.registry[u], command), Broadcast(Status(u, SentStatus(command)))]
  {
    if u !in f.registry then Out(f, [])
    else Out(f, [Chat(f.registry[u], command), Broadcast(Status(u, SentStatus(command)))])
  }

  /** Dispatches one control message by its `type`. */
  function OnRequest(f: Fleet, req: Request): (o: Out)
    requires Valid(f)
    ensures Valid(o.fleet)
    ensures req.Add? ==> o == AddBot(f, req.add)
    ensures req.Remove? ==> o == RemoveBot(f, req.username)
    ensures req.Command? ==> o == SendCommand(f, req.username, req.command)
    ensures req.Stop? ==> o == StopBot(f, req.username)
    ensures req.Ignored? ==> o == Out(f, [])
  {
    match req
    case Add(add) => AddBot(f, add)
    case Remove(u) => RemoveBot(f, u)
    case Command(u, command) => SendCommand(f, u, command)
    case Stop(u) => StopBot(f, u)
    case Ignored => Out(f, [])
  }

  // ---------------------------------------------------------------------
  // Startup

  /** The references 0, 1, ..., n - 1. */
  function Range(n: nat): (refs: seq<Ref>)
    ensures |refs| == n
    ensures forall i :: 0 <= i < n ==> refs[i] == i
  {
    if n == 0 then [] else Range(n - 1) + [n - 1]
  }

  /** The state reached after the first `n` bots of `loaded` have been created. */
  predicate BootedPrefix(f: Fleet, loaded: seq<Descriptor>, n: nat)
  {
    && n <= |loaded|
    && Valid(f)
    && f.heap == loaded && f.store == Range(|loaded|) && f.reconnects == []
    && |f.sessions| == n
    && (forall j :: 0 <= j < n ==> f.sessions[j].config == j)
    && (forall j :: 0 <= j < n ==> f.sessions[j].relogin.None? && !f.sessions[j].afkArmed)
    && (forall j :: 0 <= j < n ==> loaded[j].username in f.registry)
    && (forall u :: u in f.registry ==> f.registry[u] < n && loaded[f.registry[u]].username == u)
    && (forall u, j :: u in f.registry && f.registry[u] < j < n ==> loaded[j].username != u)
  }

  lemma BootStep(f: Fleet, loaded: seq<Descriptor>, n: nat)
    requires BootedPrefix(f, loaded, n) && n < |loaded|
    ensures BootedPrefix(CreateBot(f, n).fleet, loaded, n + 1)
  {
    var f2 := CreateBot(f, n).fleet;
    BootRegistry(f.registry, f2.registry, loaded, n);
  }

  /** The registry half of `BootStep`: registering the bot of descriptor `n`
      under its username keeps every loaded username registered to the bot
      of its last descriptor so far. */
  lemma BootRegistry(reg: map<string, Sid>, reg2: map<string, Sid>, loaded: seq<Descriptor>, n: nat)
    requires n < |loaded|
    requires forall j :: 0 <= j < n ==> loaded[j].username in reg
    requires forall u :: u in reg ==> reg[u] < n && loaded[reg[u]].username == u
    requires forall u, j :: u in reg && reg[u] < j < n ==> loaded[j].username != u
    requires reg2.Keys == reg.Keys + {loaded[n].username}
    requires reg2[loaded[n].username] == n
    requires forall u :: u in reg && u != loaded[n].username ==> reg2[u] == reg[u]
    ensures forall j :: 0 <= j < n + 1 ==> loaded[j].username in reg2
    ensures forall u :: u in reg2 ==> reg2[u] < n + 1 && loaded[reg2[u]].username == u
    ensures forall u, j :: u in reg2 && reg2[u] < j < n + 1 ==> loaded[j].username != u
  {
    var u := loaded[n].username;
    forall v, j | v in reg2 && reg2[v] < j < n + 1
      ensures loaded[j].username != v
    {
      if v != u {
        assert reg2[v] == reg[v];
      }
    }
  }

  /** Startup: the loaded descriptors become the store, and a bot is created
      for each of them in order. Of several descriptors with one username the
      last one's bot ends up registered. */
  method Boot(loaded: seq<Descriptor>) returns (f: Fleet, effects: seq<Effect>)
    ensures Valid(f)
    ensures Snapshot(f) == loaded
    ensures f.reconnects == []
    ensures |f.sessions| == |loaded|
    ensures forall i :: 0 <= i < |loaded| ==> f.sessions[i].config == f.store[i]
    ensures forall i :: 0 <= i < |loaded| ==> f.sessions[i].relogin.None? && !f.sessions[i].afkArmed
    ensures forall i :: 0 <= i < |loaded| ==> loaded[i].username in f.registry
    ensures forall u :: u in f.registry ==>
              f.registry[u] < |loaded| && loaded[f.registry[u]].username == u
    ensures forall u, j :: u in f.registry && f.registry[u] < j < |loaded| ==> loaded[j].username != u
    ensures |effects| == |loaded|
    ensures forall i :: 0 <= i < |loaded| ==> effects[i] == Open(i, OptionsFor(loaded[i]))
  {
    f := Fleet(loaded, Range(|loaded|), [], map[], []);
    assert RefsIn(f.heap, f.store) && Distinct(f.store);
    effects := [];
    var i := 0;
    while i < |loaded|
      invariant BootedPrefix(f, loaded, i)
      invariant |effects| == i
      invariant forall j :: 0 <= j < i ==> effects[j] == Open(j, OptionsFor(loaded[j]))
    {
      BootStep(f, loaded, i);
      var o := CreateBot(f, i);
      assert o.effects == [Open(i, OptionsFor(loaded[i]))];
      f := o.fleet;
      effects := effects + o.effects;
      assert effects[i] == Open(i, OptionsFor(loaded[i]));
      i := i + 1;
    }
    BootedAll(f, loaded);
  }

  /** Once every loaded descriptor has its bot, the startup invariant says
      what `Boot` promises. */
  lemma BootedAll(f: Fleet, loaded: seq<Descriptor>)
    requires BootedPrefix(f, loaded, |loaded|)
    ensures Valid(f) && Snapshot(f) == loaded && f.reconnects == []
    ensures |f.sessions| == |loaded|
    ensures forall i :: 0 <= i < |loaded| ==> f.sessions[i].config == f.store[i]
    ensures forall i :: 0 <= i < |loaded| ==> f.sessions[i].relogin.None? && !f.sessions[i].afkArmed
  {
    assert Snapshot(f) == loaded;
  }
}

=== FILE: properties.dfy ===
/** Properties of composed lifecycle transitions: what stop, remove, relogin
    and reconnect promise over sequences of events. */
module Properties {
  import opened Descriptors
  import opened Effects
  import opened Lifecycle

  /** `find` by username only looks at usernames, so changing any other
      field of the descriptors does not move the match. */
  lemma {:induction false} FirstIndexSameNames(a: seq<Descriptor>, b: seq<Descriptor>, u: string)
    requires |a| == |b|
    requires forall j :: 0 <= j < |a| ==> a[j].username == b[j].username
    ensures FirstIndex(a, u) == FirstIndex(b, u)
  {
    if a != [] {
      FirstIndexSameNames(a[1..], b[1..], u);
    }
  }

  /** Stop is terminal: once `stopBot(u)` has run on a live bot, the `end`
      that follows for any bot named `u` schedules no reconnect. */
  lemma StopThenEndNoReconnect(f: Fleet, u: string, sid: Sid)
    requires Valid(f) && u in f.registry
    requires sid < |f.sessions| && f.sessions[sid].username == u
    ensures var f1 := StopBot(f, u).fleet;
            && OnEnd(f1, sid).fleet.reconnects == f.reconnects
            && u !in OnEnd(f1, sid).fleet.registry
  {
    var f1 := StopBot(f, u).fleet;
    var s0 := Snapshot(f);
    var s1 := Snapshot(f1);
    match FirstIndex(s0, u)
    case None =>
      assert s1 == s0;
    case Some(i) =>
      assert s1 == s0[i := s0[i].(reloginInterval := 0)];
      FirstIndexSameNames(s0, s1, u);
      assert !ReconnectAuthorized(f1, u);
  }

  /** Right after a stop and the stopped bot's `end`, `removeBot` does
      nothing: it only acts on a registered bot, and stopping unregisters it,
      so the stopped descriptor stays in the store. */
  lemma StopThenRemoveKeepsDescriptor(f: Fleet, u: string, sid: Sid)
    requires Valid(f) && u in f.registry
    requires sid < |f.sessions| && f.sessions[sid].username == u
    ensures var f1 := StopBot(f, u).fleet;
            var f2 := OnEnd(f1, sid).fleet;
            && RemoveBot(f2, u) == Out(f2, [])
            && Snapshot(f2) == Snapshot(f1)
            && (FirstIndex(Snapshot(f), u).Some? ==>
                  exists j :: 0 <= j < |Snapshot(f2)| && Snapshot(f2)[j].username == u)
  {
    var f1 := StopBot(f, u).fleet;
    var f2 := OnEnd(f1, sid).fleet;
    assert f2.store == f1.store && f2.heap == f1.heap;
    if FirstIndex(Snapshot(f), u).Some? {
      var i := FirstIndex(Snapshot(f), u).value;
      assert Snapshot(f2)[i].username == u;
    }
  }

  /** Remove is terminal: after `removeBot(u)`, no descriptor named `u` is
      left, so the `end` of the removed bot schedules no reconnect. */
  lemma RemoveThenEndNoReconnect(f: Fleet, u: string, sid: Sid)
    requires Valid(f) && u in f.registry
    requires sid < |f.sessions| && f.sessions[sid].username == u
    ensures var f1 := RemoveBot(f, u).fleet;
            && (forall j :: 0 <= j < |Snapshot(f1)| ==> Snapshot(f1)[j].username != u)
            && u !in f1.registry
            && OnEnd(f1, sid).fleet.reconnects == f.reconnects
  {
    var f1 := RemoveBot(f, u).fleet;
    forall j | 0 <= j < |Snapshot(f1)|
      ensures Snapshot(f1)[j].username != u
    {
      assert Snapshot(f1)[j] in WithoutUser(Snapshot(f), u);
    }
  }

  /** Whether `end` reconnects depends on the FIRST descriptor of that name
      only; while usernames are unique that is the same as asking whether
      some descriptor of that name has relogin enabled. */
  lemma AuthorizedWhenUnique(f: Fleet, u: string)
    requires Valid(f)
    requires forall i, j :: 0 <= i < j < |Snapshot(f)| ==> Snapshot(f)[i].username != Snapshot(f)[j].username
    ensures ReconnectAuthorized(f, u) <==>
              exists j :: 0 <= j < |Snapshot(f)| && Snapshot(f)[j].username == u
                          && ReloginEnabled(Snapshot(f)[j])
  {
    var ds := Snapshot(f);
    if j :| 0 <= j < |ds| && ds[j].username == u && ReloginEnabled(ds[j]) {
      var i := FirstIndex(ds, u).value;
      assert i == j;
    }
  }

  /** With two descriptors of one name (which `addBot` allows), the second
      one's interval is never consulted by `end`. */
  lemma FirstMatchDecides(ep: Endpoint)
    ensures var a := Descriptor("u", None, ep, [], 0);
            var b := Descriptor("u", None, ep, [], 5);
            var f := Fleet([a, b], [0, 1], [Session("u", 1, None, false)], map["u" := 0], []);
            && Valid(f)
            && OnEnd(f, 0).fleet.reconnects == []
  {
    var a := Descriptor("u", None, ep, [], 0);
    var b := Descriptor("u", None, ep, [], 5);
    var f := Fleet([a, b], [0, 1], [Session("u", 1, None, false)], map["u" := 0], []);
    assert Valid(f);
    assert Snapshot(f) == [a, b];
    assert FirstIndex(Snapshot(f), "u") == Some(0);
  }

  /** In general: when `u`'s first descriptor is at position `i`, the
      interval of any later descriptor `j` of `u` can be anything at all
      without changing what `end` schedules. */
  lemma LaterMatchIgnored(f: Fleet, sid: Sid, i: nat, j: nat, n: int)
    requires Valid(f) && sid < |f.sessions|
    requires FirstIndex(Snapshot(f), f.sessions[sid].username) == Some(i)
    requires i < j < |f.store|
    ensures var r := f.store[j];
            var g := f.(heap := f.heap[r := f.heap[r].(reloginInterval := n)]);
            && Valid(g)
            && OnEnd(g, sid).fleet.reconnects == OnEnd(f, sid).fleet.reconnects
  {
    var r := f.store[j];
    var d := f.heap[r].(reloginInterval := n);
    ValidHeapUpdate(f, r, d);
    var g := f.(heap := f.heap[r := d]);
    LaterMatchSameAuthorization(f, f.sessions[sid].username, i, j, n);
    assert OnEnd(g, sid).fleet.reconnects == OnEnd(f, sid).fleet.reconnects;
  }

  /** The authorization half of `LaterMatchIgnored`: the first match, and so
      the reconnect decision and the object it reconnects with, stay put. */
  lemma LaterMatchSameAuthorization(f: Fleet, u: string, i: nat, j: nat, n: int)
    requires Valid(f)
    requires FirstIndex(Snapshot(f), u) == Some(i)
    requires i < j < |f.store|
    ensures var r := f.store[j];
            var g := f.(heap := f.heap[r := f.heap[r].(reloginInterval := n)]);
            && Valid(g)
            && FirstIndex(Snapshot(g), u) == Some(i)
            && ReconnectAuthorized(g, u) == ReconnectAuthorized(f, u)
  {
    var r := f.store[j];
    var d := f.heap[r].(reloginInterval := n);
    var g := f.(heap := f.heap[r := d]);
    ValidHeapUpdate(f, r, d);
    ResolveUpdate(f.heap, f.store, j, d);
    UpdateKeepsFirst(Snapshot(f), u, i, j, n);
    assert Snapshot(g)[i] == Snapshot(f)[i];
  }

  /** Changing the interval of a descriptor after the first match of `u`
      does not move that match. */
  lemma UpdateKeepsFirst(ds: seq<Descriptor>, u: string, i: nat, j: nat, n: int)
    requires FirstIndex(ds, u) == Some(i) && i < j < |ds|
    ensures FirstIndex(ds[j := ds[j].(reloginInterval := n)], u) == Some(i)
  {
    FirstIndexSameNames(ds, ds[j := ds[j].(reloginInterval := n)], u);
  }

  /** On the first login of a bot, the relogin timer is armed if and only if
      its descriptor object's interval is positive, and then for exactly that
      many minutes, unless that exceeds what a Node.js timer can count, in
      which case it fires after 1 ms. */
  lemma LoginArmsIffEnabled(f: Fleet, sid: Sid)
    requires Valid(f) && sid < |f.sessions| && f.sessions[sid].relogin.None?
    ensures var d := f.heap[f.sessions[sid].config];
            var s := OnLogin(f, sid).fleet.sessions[sid];
            && (s.relogin.Some? <==> d.reloginInterval > 0)
            && (s.relogin.Some? && d.reloginInterval <= 35791 ==>
                  s.relogin.value == d.reloginInterval * 60 * 1000)
            && (s.relogin.Some? && d.reloginInterval > 35791 ==> s.relogin.value == 1)
  {
  }

  /** A fresh bot whose descriptor object has a positive interval logs in,
      has its relogin timer armed for the interval in milliseconds, and is
      asked to quit when that timer fires; the store, registry and pending
      reconnects are untouched. */
  lemma LoginThenRelogin(f: Fleet, sid: Sid)
    requires Valid(f) && sid < |f.sessions| && f.sessions[sid].relogin.None?
    requires ReloginEnabled(f.heap[f.sessions[sid].config])
    ensures var u := f.sessions[sid].username;
            var o1 := OnLogin(f, sid);
            var o2 := ReloginDue(o1.fleet, sid);
            && o1.fleet.sessions[sid].relogin
               == Some(TimerDelay(f.heap[f.sessions[sid].config].reloginInterval * 60 * 1000))
            && o1.effects + o2.effects
               == [Broadcast(Status(u, LoggedIn)), Broadcast(Status(u, ScheduledRelogin)), Quit(sid)]
            && o2.fleet.heap == f.heap && o2.fleet.store == f.store
            && o2.fleet.registry == f.registry && o2.fleet.reconnects == f.reconnects
            && |o2.fleet.sessions| == |f.sessions|
            && o2.fleet.sessions[sid].username == u
            && o2.fleet.sessions[sid].config == f.sessions[sid].config
  {
    var o1 := OnLogin(f, sid);
    assert o1.fleet.sessions[sid].relogin.Some?;
  }

  /** Reconnect convergence: when the first descriptor named after an ending
      bot is the bot's own object and has a positive interval, `end`
      schedules one reconnect with that object, and when it fires a new bot
      is created from the same object and registered under the same name. */
  lemma EndThenReconnect(f: Fleet, sid: Sid, i: nat)
    requires Valid(f) && sid < |f.sessions|
    requires FirstIndex(Snapshot(f), f.sessions[sid].username) == Some(i)
    requires f.store[i] == f.sessions[sid].config
    requires ReloginEnabled(f.heap[f.sessions[sid].config])
    ensures var u := f.sessions[sid].username;
            var r := f.sessions[sid].config;
            var o3 := OnEnd(f, sid);
            var o4 := ReconnectDue(o3.fleet, |f.reconnects|);
            && u !in o3.fleet.registry
            && o3.fleet.reconnects == f.reconnects + [Reconnect(r, ReconnectDelayMs)]
            && o3.effects + o4.effects
               == [Broadcast(Status(u, Disconnected)), Open(|f.sessions|, OptionsFor(f.heap[r]))]
            && o4.fleet.reconnects == f.reconnects
            && o4.fleet.heap == f.heap && o4.fleet.store == f.store
            && u in o4.fleet.registry && o4.fleet.registry[u] == |f.sessions|
            && |o4.fleet.sessions| > |f.sessions| && o4.fleet.sessions[|f.sessions|].config == r
  {
    var r := f.sessions[sid].config;
    var o3 := OnEnd(f, sid);
    var k := |f.reconnects|;
    assert o3.fleet.reconnects[k] == Reconnect(r, ReconnectDelayMs);
    assert o3.fleet.reconnects[..k] + o3.fleet.reconnects[k + 1..] == f.reconnects;
  }

  /** Scheduled relogin end to end: login, relogin timer, `end`, reconnect
      timer, and the bot is registered again from the same descriptor object
      with the store as it was. */
  lemma ReloginCycle(f: Fleet, sid: Sid, i: nat)
    requires Valid(f) && sid < |f.sessions| && f.sessions[sid].relogin.None?
    requires FirstIndex(Snapshot(f), f.sessions[sid].username) == Some(i)
    requires f.store[i] == f.sessions[sid].config
    requires ReloginEnabled(f.heap[f.sessions[sid].config])
    ensures var u := f.sessions[sid].username;
            var r := f.sessions[sid].config;
            var o1 := OnLogin(f, sid);
            var o2 := ReloginDue(o1.fleet, sid);
            var o3 := OnEnd(o2.fleet, sid);
            var o4 := ReconnectDue(o3.fleet, |f.reconnects|);
            && o1.effects + o2.effects + o3.effects + o4.effects
               == [Broadcast(Status(u, LoggedIn)), Broadcast(Status(u, ScheduledRelogin)), Quit(sid),
                   Broadcast(Status(u, Disconnected)), Open(|f.sessions|, OptionsFor(f.heap[r]))]
            && o4.fleet.reconnects == f.reconnects
            && Snapshot(o4.fleet) == Snapshot(f)
            && u in o4.fleet.registry && o4.fleet.registry[u] == |f.sessions|
            && |o4.fleet.sessions| > |f.sessions| && o4.fleet.sessions[|f.sessions|].config == r
  {
    LoginThenRelogin(f, sid);
    var o1 := OnLogin(f, sid);
    var o2 := ReloginDue(o1.fleet, sid);
    assert Snapshot(o2.fleet) == Snapshot(f);
    EndThenReconnect(o2.fleet, sid, i);
    var o3 := OnEnd(o2.fleet, sid);
    var o4 := ReconnectDue(o3.fleet, |f.reconnects|);
    assert o1.effects + o2.effects + o3.effects + o4.effects
           == (o1.effects + o2.effects) + (o3.effects + o4.effects);
  }

  /** `kicked` followed by `end` schedules exactly what `end` alone would:
      the kick itself never reconnects. */
  lemma KickedThenEnd(f: Fleet, sid: Sid, reason: string)
    requires Valid(f) && sid < |f.sessions|
    ensures var o1 := OnKicked(f, sid, reason);
            var o2 := OnEnd(o1.fleet, sid);
            && o1.fleet.reconnects == f.reconnects
            && o2.fleet.reconnects == OnEnd(f, sid).fleet.reconnects
            && o2.fleet.registry == OnEnd(f, sid).fleet.registry
  {
    var o1 := OnKicked(f, sid, reason);
    EndReconnectsSameStore(f, o1.fleet, sid);
    EndRegistryUnregistered(f, o1.fleet, sid);
  }

  /** `end` of bot `sid` schedules the same reconnects in two fleets that
      agree on the descriptor objects, the store and the pending timers. */
  lemma EndReconnectsSameStore(f: Fleet, g: Fleet, sid: Sid)
    requires Valid(f) && Valid(g) && sid < |f.sessions| && sid < |g.sessions|
    requires g.heap == f.heap && g.store == f.store && g.reconnects == f.reconnects
    requires g.sessions[sid].username == f.sessions[sid].username
    ensures OnEnd(g, sid).fleet.reconnects == OnEnd(f, sid).fleet.reconnects
  {
    assert Snapshot(g) == Snapshot(f);
  }

  /** `end` of bot `sid` leaves the same registry whether or not its
      username had already been dropped. */
  lemma EndRegistryUnregistered(f: Fleet, g: Fleet, sid: Sid)
    requires Valid(f) && Valid(g) && sid < |f.sessions| && sid < |g.sessions|
    requires g.sessions[sid].username == f.sessions[sid].username
    requires g.registry == f.registry - {f.sessions[sid].username}
    ensures OnEnd(g, sid).fleet.registry == OnEnd(f, sid).fleet.registry
  {
    var u := f.sessions[sid].username;
    EndRegistry(f, sid);
    EndRegistry(g, sid);
    RemoveTwice(f.registry, u);
  }

  lemma RemoveTwice(m: map<string, Sid>, u: string)
    ensures (m - {u}) - {u} == m - {u}
  {
  }

  /** `end` of bot `sid` drops exactly its username from the registry. */
  lemma EndRegistry(f: Fleet, sid: Sid)
    requires Valid(f) && sid < |f.sessions|
    ensures OnEnd(f, sid).fleet.registry == f.registry - {f.sessions[sid].username}
  {
  }

}

=== FILE: scenarios.dfy ===
/** Concrete runs of the whole server, and the places where the code lets
    the registry and the store drift apart. */
module Scenarios {
  import opened Descriptors
  import opened Effects
  import opened Lifecycle
  import opened Broadcast
  import opened Server

  const Empty := Fleet([], [], [], map[], [])

  const Alice := Descriptor("alice", None, Endpoint("h", 1), [], 0)
  const AddAlice := AddRequest("alice", None, Some(Endpoint("h", 1)), None)

  /** The fleet and observer right after "alice" has been added. */
  const AliceFleet := Fleet([Alice], [0], [Session("alice", 0, None, false)], map["alice" := 0], [])
  const AliceState := State(AliceFleet, [Observer(true, [Bots([]), Bots([Alice])])])

  /** Adding "alice" to an empty fleet watched by one open observer that has
      seen the empty list. */
  lemma AliceAdded()
    ensures var r := Step(State(Empty, [Observer(true, [Bots([])])]), Requested(0, Add(AddAlice)));
            && r.server == AliceState
            && r.effects == [Persist([Alice]), Open(0, OptionsFor(Alice)), Broadcast(Bots([Alice]))]
  {
    var s0 := State(Empty, [Observer(true, [Bots([])])]);
    assert Resolve([], []) == [];
    var r1 := Step(s0, Requested(0, Add(AddAlice)));
    assert Snapshot(r1.server.fleet) == [Alice];
    assert r1.effects == [Persist([Alice]), Open(0, OptionsFor(Alice)), Broadcast(Bots([Alice]))];
    assert Received(r1.effects, Some(0), 0) == [Bots([Alice])];
    assert r1.server.observers[0] == Observer(true, [Bots([]), Bots([Alice])]);
    assert r1.server.fleet.heap == [Alice] && r1.server.fleet.store == [0];
    assert r1.server.fleet.sessions == [Session("alice", 0, None, false)];
    assert r1.server.fleet.reconnects == [];
    assert r1.server.fleet.registry == map["alice" := 0];
  }

  /** "alice", just added with no relogin interval, logs in: the observer
      sees the login and no relogin timer is armed. */
  lemma AliceLogsIn()
    ensures Valid(AliceFleet)
    ensures var r := Step(AliceState, Notified(0, Login));
            && r.server.fleet == AliceFleet
            && r.server.observers == [Observer(true, [Bots([]), Bots([Alice]), Status("alice", LoggedIn)])]
  {
    assert Valid(AliceFleet);
    var r := Step(AliceState, Notified(0, Login));
    assert r.effects == [Broadcast(Status("alice", LoggedIn))];
    assert Received(r.effects, None, 0) == [Status("alice", LoggedIn)];
    assert r.server.observers[0] == Observer(true, [Bots([]), Bots([Alice]), Status("alice", LoggedIn)]);
    assert r.server.fleet.sessions == AliceFleet.sessions;
  }

  /** An observer connects to an empty fleet, "alice" is added with no
      relogin interval and logs in. The observer sees the empty list on
      connecting, then the one-element list, then the login; no relogin timer
      is armed. */
  lemma AddAliceThenLogin()
    ensures var s0 := Step(State(Empty, []), Connected).server;
            var s1 := Step(s0, Requested(0, Add(AddAlice))).server;
            var s2 := Step(s1, Notified(0, Login)).server;
            && Snapshot(s2.fleet) == [Alice]
            && |s2.fleet.sessions| == 1 && s2.fleet.sessions[0].relogin.None?
            && s2.fleet.registry == map["alice" := 0]
            && s2.observers == [Observer(true, [Bots([]), Bots([Alice]), Status("alice", LoggedIn)])]
  {
    var s0 := Step(State(Empty, []), Connected).server;
    assert Resolve([], []) == [];
    assert s0 == State(Empty, [Observer(true, [Bots([])])]);
    AliceAdded();
    AliceLogsIn();
    assert Snapshot(AliceFleet) == [Alice];
  }

  /** The eleventh `addBot` is answered with the capacity error, to the
      requester only, and changes nothing. */
  lemma EleventhBotRefused(s: State, k: nat, req: AddRequest)
    requires Lifecycle.Valid(s.fleet) && |s.fleet.store| == MaxBots
    ensures var r := Step(s, Requested(k, Add(req)));
            && r.server.fleet == s.fleet
            && r.effects == [Reply(Error(CapacityMessage))]
            && (forall i :: 0 <= i < |s.observers| && i != k ==> r.server.observers[i] == s.observers[i])
            && (k < |s.observers| && s.observers[k].open ==>
                  r.server.observers[k].inbox == s.observers[k].inbox + [Error(CapacityMessage)])
  {
    var r := Step(s, Requested(k, Add(req)));
    assert ToRequester(r.effects) == [Error(CapacityMessage)];
    assert Broadcasts(r.effects) == [];
  }

  /** A pending reconnect does not look at the store: it registers a bot
      even when no descriptor of that name is stored any more. */
  lemma ReconnectIgnoresStore(ep: Endpoint)
    ensures var d := Descriptor("u", None, ep, [], 1);
            var f := Fleet([d], [], [], map[], [Reconnect(0, ReconnectDelayMs)]);
            && Valid(f)
            && "u" in ReconnectDue(f, 0).fleet.registry
            && Snapshot(ReconnectDue(f, 0).fleet) == []
  {
    var d := Descriptor("u", None, ep, [], 1);
    var f := Fleet([d], [], [], map[], [Reconnect(0, ReconnectDelayMs)]);
    assert Valid(f);
  }

  /** `addBot` does not look for an existing descriptor of the same name:
      a second one is appended, and the bot already registered under that
      name stays alive but is no longer registered. */
  lemma AddDuplicateReplacesRegistration(f: Fleet, req: AddRequest)
    requires Valid(f) && |f.store| < MaxBots && req.server.Some?
    requires req.username in f.registry
    ensures var o := AddBot(f, req);
            && |Snapshot(o.fleet)| == |Snapshot(f)| + 1
            && o.fleet.registry[req.username] != f.registry[req.username]
            && o.fleet.sessions[f.registry[req.username]] == f.sessions[f.registry[req.username]]
  {
    var o := AddBot(f, req);
    assert o.fleet.registry[req.username] == |f.sessions|;
  }
}

=== FILE: server.dfy ===
/** The whole server as one state machine: the fleet and the observer
    connections, driven by observer connects, closes and messages, session
    callbacks and timer firings, all handled one at a time in one context. */
module Server {
  import opened Descriptors
  import opened Effects
  import Lifecycle
  import opened Broadcast

  datatype State = State(fleet: Lifecycle.Fleet, observers: seq<Observer>)

  /** Everything that can wake the server up. */
  datatype Event =
    | Connected                                     // a new observer connection
    | Closed(observer: nat)                         // an observer connection closes
    | Requested(observer: nat, req: Lifecycle.Request)
    | Notified(session: Sid, cb: Lifecycle.Callback)
    | ReloginFired(session: Sid)
    | ReconnectFired(timer: nat)

  datatype Outcome = Outcome(server: State, effects: seq<Effect>)

  /** The connection a transition replies to, if any. */
  function RequesterOf(e: Event): Option<nat>
  {
    if e.Requested? then Some(e.observer) else None
  }

  /** The fleet transition an event triggers. */
  function FleetStep(f: Lifecycle.Fleet, e: Event): (o: Lifecycle.Out)
    requires Lifecycle.Valid(f)
    ensures Lifecycle.Valid(o.fleet)
    ensures |f.store| <= Lifecycle.MaxBots ==> |o.fleet.store| <= Lifecycle.MaxBots
    ensures |o.fleet.store| <= |f.store| || |o.fleet.store| <= Lifecycle.MaxBots
    ensures e.Connected? || e.Closed? ==> o == Lifecycle.Out(f, [])
    ensures e.Requested? ==> o == Lifecycle.OnRequest(f, e.req)
    ensures e.Notified? ==> o == Lifecycle.OnCallback(f, e.session, e.cb)
    ensures e.ReloginFired? ==> o == Lifecycle.ReloginDue(f, e.session)
    ensures e.ReconnectFired? ==> o == Lifecycle.ReconnectDue(f, e.timer)
  {
    match e
    case Connected => Lifecycle.Out(f, [])
    case Closed(_) => Lifecycle.Out(f, [])
    case Requested(_, req) =>
      var o := Lifecycle.OnRequest(f, req);
      assert |Lifecycle.Snapshot(o.fleet)| <= |Lifecycle.Snapshot(f)| || |o.fleet.store| <= Lifecycle.MaxBots;
      o
    case Notified(sid, cb) => Lifecycle.OnCallback(f, sid, cb)
    case ReloginFired(sid) => Lifecycle.ReloginDue(f, sid)
    case ReconnectFired(k) => Lifecycle.ReconnectDue(f, k)
  }

  /** One event handled to completion. A new connection gets the current
      descriptor list; every other event's broadcasts reach exactly the open
      connections, and its replies reach the requester. */
  function Step(s: State, e: Event): (r: Outcome)
    requires Lifecycle.Valid(s.fleet)
    ensures Lifecycle.Valid(r.server.fleet)
    ensures |s.fleet.store| <= Lifecycle.MaxBots ==> |r.server.fleet.store| <= Lifecycle.MaxBots
    ensures e.Connected? ==>
              && r.server.fleet == s.fleet && r.effects == []
              && |r.server.observers| == |s.observers| + 1
              && r.server.observers[..|s.observers|] == s.observers
              && r.server.observers[|s.observers|] == Observer(true, [Bots(Lifecycle.Snapshot(s.fleet))])
    ensures e.Closed? ==>
              && r.server.fleet == s.fleet && r.effects == []
              && |r.server.observers| == |s.observers|
              && (forall i :: 0 <= i < |s.observers| ==> r.server.observers[i].inbox == s.observers[i].inbox)
              && (forall i :: 0 <= i < |s.observers| && i != e.observer ==>
                    r.server.observers[i].open == s.observers[i].open)
              && (e.observer < |s.observers| ==> !r.server.observers[e.observer].open)
    ensures !e.Connected? && !e.Closed? ==>
              && Lifecycle.Out(r.server.fleet, r.effects) == FleetStep(s.fleet, e)
              && |r.server.observers| == |s.observers|
              && (forall i :: 0 <= i < |s.observers| ==> r.server.observers[i].open == s.observers[i].open)
              && (forall i :: 0 <= i < |s.observers| && !s.observers[i].open ==>
                    r.server.observers[i] == s.observers[i])
              && (forall i :: 0 <= i < |s.observers| && s.observers[i].open ==>
                    r.server.observers[i].inbox
                    == s.observers[i].inbox + Received(r.effects, RequesterOf(e), i))
  {
    match e
    case Connected =>
      Outcome(State(s.fleet, Connect(s.observers, Lifecycle.Snapshot(s.fleet))), [])
    case Closed(k) =>
      Outcome(State(s.fleet, Close(s.observers, k)), [])
    case _ =>
      var o := FleetStep(s.fleet, e);
      Outcome(State(o.fleet, Dispatch(s.observers, RequesterOf(e), o.effects)), o.effects)
  }

  /** A sequence of events handled in order. */
  function Run(s: State, events: seq<Event>): (r: State)
    requires Lifecycle.Valid(s.fleet)
    ensures Lifecycle.Valid(r.fleet)
    ensures |s.fleet.store| <= Lifecycle.MaxBots ==> |r.fleet.store| <= Lifecycle.MaxBots
    decreases |events|
  {
    if events == [] then s
    else Run(Step(s, events[0]).server, events[1..])
  }
}
